=== FILE: README.md ===
# Deployment-topology synchronisation and property helpers, in Dafny

This project models the core of alien4cloud's deployment-topology engine. That engine keeps a derived *deployment topology* (one per application version and environment) in step with the following inputs:

- its source topology;
- the locations it is placed on;
- the on-demand resources that substitute its abstract nodes.

The project also models `PropertyUtil`, the helper class that turns untyped property values into typed ones and merges property maps.

The model is functional. Durable state is the immutable record `World`, which holds:

- the deployment-topology store;
- topologies, environments, versions and locations;
- location resource templates;
- the locations the calling user may deploy on.

Timestamps are `nat`, and Java's `Date.before` is `<`. Java `null` is `Option.None`, and exceptions are `Result.Err` values. Collaborators whose code is not part of this model are opaque function fields of `Collaborators`. These are the structural merge, composition, input processing, node substitution, availability lookup, resource-type lookup, the resource-template setters and `DeploymentTopology.generateId`. Each returns only the part of the deployment topology it rewrites. So "the id and the sync date are not touched by the pipeline" holds by construction.

Modules, in dependency order:

- `Outcomes`: `Option`, `Result` and the exception kinds.
- `ToscaModel`: raw values, typed property values, node templates and capabilities.
- `JavaStrings`: `String.trim` and `String.split` on a one-character separator.
- `MapFacts`: how many distinct values a map has. This explains the size check in `getLocations`.
- `PropertyUtil`: default extraction, complex-path heads, the typed setter and its overloads, and the merge.
- `DeploymentModel`: the entities, `World`, `Collaborators`, `save`.
- `LocationPolicies`: the location lookup by group and the single-group placement assigner.
- `Synchronization`: the staleness predicate and its loop, regeneration, get-or-create, and the update-and-save paths.
- `Substitution`: the availability snapshot and `getDeploymentConfiguration(DeploymentTopology)`.
- `PropertyOverrides`: substitution lookup and the mirroring of a resource's property onto the node.
- `Facade`: `getDeploymentConfiguration(environmentId)` and `setLocationPolicies`.

Behaviour of the code that a reader might not expect, each stated as a contract or a lemma:

- **Regeneration settles only without late locations.** Regeneration stamps the sync date with the topology's last update only. Get-or-create is idempotent when no referenced location is newer than the topology (`GetOrCreateSettles`). Otherwise every call regenerates again (`LateLocationKeepsRegenerating`).
- **Location check is size-based.** Stored locations count as invalid when fewer locations come back than there are groups. That also happens when two groups name the same location, not only when a location is deleted.
- **Regeneration trigger.** `getDeploymentConfiguration` compares the number of entries in the availability map with the number of existing substitutions. The snapshot it returns is the one taken *before* the update it may trigger.
- **Partial write on override failure.** A property override writes the resource template before it dereferences the node. If the node or the resource-side property map is missing, the call throws after the resource write, so the resource change remains. The change also remains when the final save fails.

## Model

| member | source | states |
|---|---|---|
| `JavaStrings.BlankIffAllTrimmable` | alien4cloud-core/src/main/java/alien4cloud/utils/PropertyUtil.java:43 | `trim().isEmpty()` holds exactly when every character is at most U+0020 |
| `PropertyUtil.DefaultEntry` | alien4cloud-core/src/main/java/alien4cloud/utils/PropertyUtil.java:42-47 | an entry is `Scalar(default)` iff the default is non-null and not all whitespace, otherwise null |
| `PropertyUtil.DefaultPropertyValues` | alien4cloud-core/src/main/java/alien4cloud/utils/PropertyUtil.java:34-51 | null in, null out; otherwise exactly the definitions' key set, each entry a non-blank default as a scalar or null |
| `PropertyUtil.DefaultValue` | alien4cloud-core/src/main/java/alien4cloud/utils/PropertyUtil.java:53-60 | a result implies the key is defined and is its default; for a defined key the result is its raw default |
| `PropertyUtil.DefaultValueAgreesWithDefaultMap` | alien4cloud-core/src/main/java/alien4cloud/utils/PropertyUtil.java:34-60 | the default map holds a scalar for a name iff the single lookup returns a non-blank default, and it wraps that text |
| `PropertyUtil.PropertyNameFromComplexPath` | alien4cloud-core/src/main/java/alien4cloud/utils/PropertyUtil.java:69-76 | null iff no dot; fails with index-out-of-bounds iff the path is only dots; otherwise a dot-free prefix followed by a dot in the path |
| `PropertyUtil.ToPropertyValue` | alien4cloud-core/src/main/java/alien4cloud/utils/PropertyUtil.java:89-97 | String, Map and List dispatch to their wrappers and unwrap back to the input; any other type fails with invalid-argument |
| `PropertyUtil.DispatchRoundTrip` | alien4cloud-core/src/main/java/alien4cloud/utils/PropertyUtil.java:89-95 | dispatching the raw content of a typed value gives that value back |
| `PropertyUtil.SetPropertyValue` | alien4cloud-core/src/main/java/alien4cloud/utils/PropertyUtil.java:78-99 | a null value falls back to the default (null default stores null, null definition throws); a stored value reads back as the input; other types fail; only the named key changes |
| `PropertyUtil.SetNodePropertyValue` | alien4cloud-core/src/main/java/alien4cloud/utils/PropertyUtil.java:109-114 | a null property map becomes empty, then the map overload's outcome applies and nothing else of the node changes |
| `PropertyUtil.SetCapabilityPropertyValue` | alien4cloud-core/src/main/java/alien4cloud/utils/PropertyUtil.java:124-129 | the same for a capability's property map |
| `PropertyUtil.SetOnNullMapCreatesSingleKey` | alien4cloud-core/src/main/java/alien4cloud/utils/PropertyUtil.java:110-113 | on a node without a property map, a successful set leaves exactly the one key |
| `PropertyUtil.MergeProperties` | alien4cloud-core/src/main/java/alien4cloud/utils/PropertyUtil.java:138-151 | null or empty `from` leaves `into`; unconsidered keys untouched; non-null `from` values win; a null never replaces a non-null value |
| `PropertyUtil.MergeIdempotent` | alien4cloud-core/src/main/java/alien4cloud/utils/PropertyUtil.java:138-151 | merging the same map twice equals merging it once |
| `PropertyUtil.MergeFilterIsRestriction` | alien4cloud-core/src/main/java/alien4cloud/utils/PropertyUtil.java:141-144 | a key filter equals merging, unfiltered, the part of `from` inside the filter |
| `DeploymentModel.GetOrFail` | alien4cloud-core/src/main/java/alien4cloud/deployment/DeploymentTopologyService.java:94-100 | succeeds iff the id is non-null and stored, returning the stored document; otherwise not-found |
| `DeploymentModel.Save` | alien4cloud-core/src/main/java/alien4cloud/deployment/DeploymentTopologyService.java:83-86 | the document replaces the entry under its id, nothing else changes, and stored ids stay consistent with their keys |
| `LocationPolicies.GetLocations` | alien4cloud-core/src/main/java/alien4cloud/deployment/DeploymentTopologyService.java:315-325 | succeeds iff every group's location exists and no two groups share one (the size check); the result has the groups' keys and their locations; failure is not-found |
| `LocationPolicies.AddLocationPolicies` | alien4cloud-core/src/main/java/alien4cloud/deployment/DeploymentTopologyService.java:345-374 | null/empty mapping: unchanged; several entries: unsupported; one entry: not-found, access-denied, or the all-nodes group replaced by one placement policy on that location, other groups kept, dependencies added |
| `LocationPolicies.AssignedLocationIsReadBack` | alien4cloud-core/src/main/java/alien4cloud/deployment/DeploymentTopologyService.java:358-373 | reading the group locations back after a single assignment gives the old mapping with the all-nodes group on the chosen location |
| `Synchronization.CheckIfTopologyOrLocationHasChanged` | alien4cloud-core/src/main/java/alien4cloud/deployment/DeploymentTopologyService.java:176-186 | true iff the sync date is strictly before the topology's or some location's last update; equal dates are not stale |
| `Synchronization.ProcessInputs` | alien4cloud-core/src/main/java/alien4cloud/deployment/DeploymentTopologyService.java:231-234 | the input processors rewrite node templates only, which become their output for the given environment and topology |
| `Synchronization.DoUpdate` | alien4cloud-core/src/main/java/alien4cloud/deployment/DeploymentTopologyService.java:210-221 | the sync date becomes the topology's last update; only it, the node templates and the substitutions change (id excluded from the merge); node templates and substitutions are what substitution makes of the rebuilt topology, hinted with the node templates from before the merge |
| `Synchronization.Rebuild` | alien4cloud-core/src/main/java/alien4cloud/deployment/DeploymentTopologyService.java:213-218 | only the node templates change, and they are the input processors' output on the composition of the merge of the topology into the deployment topology |
| `Synchronization.Generate` | alien4cloud-core/src/main/java/alien4cloud/deployment/DeploymentTopologyService.java:188-197 | the result carries the generated id, the environment's version and id, the topology's id and its sync date; placement and dependencies are kept |
| `Synchronization.FreshnessAfterGenerate` | alien4cloud-core/src/main/java/alien4cloud/deployment/DeploymentTopologyService.java:176-211 | right after regeneration the result is stale iff some location was updated after the topology |
| `Synchronization.StoredLocations` | alien4cloud-core/src/main/java/alien4cloud/deployment/DeploymentTopologyService.java:155-164 | no stored location ids: no locations; otherwise the lookup succeeds iff the ids resolve injectively, giving exactly the named locations |
| `Synchronization.GetOrCreate` | alien4cloud-core/src/main/java/alien4cloud/deployment/DeploymentTopologyService.java:148-174 | not-found iff the topology is missing; only the entry under the generated id may change; the result is never older than the topology; ids stay consistent |
| `Synchronization.GetOrCreateDecision` | alien4cloud-core/src/main/java/alien4cloud/deployment/DeploymentTopologyService.java:152-171 | missing or unresolvable: generated from a new object; stale: regenerated in place; otherwise returned as stored with no write |
| `Synchronization.StaleTopologyForcesRegeneration` | alien4cloud-core/src/main/java/alien4cloud/deployment/DeploymentTopologyService.java:168-170 | a topology newer than the sync date forces regeneration under the same id with that date |
| `Synchronization.GetOrCreateSettles` | alien4cloud-core/src/main/java/alien4cloud/deployment/DeploymentTopologyService.java:148-186 | with no location newer than the topology, a second call returns the first call's result and writes nothing |
| `Synchronization.LateLocationKeepsRegenerating` | alien4cloud-core/src/main/java/alien4cloud/deployment/DeploymentTopologyService.java:168-211 | a referenced location newer than the topology causes an in-place regeneration that reproduces the same situation |
| `Synchronization.UpdateDeploymentTopology` | alien4cloud-core/src/main/java/alien4cloud/deployment/DeploymentTopologyService.java:204-208 | not-found iff environment or initial topology is missing; otherwise regenerated with the topology's date and saved under its id |
| `Synchronization.UpdateInputsAndSave` | alien4cloud-core/src/main/java/alien4cloud/deployment/DeploymentTopologyService.java:228-236 | not-found iff environment or initial topology is missing; otherwise the node templates become the input processors' output for the environment and initial topology it names, nothing else changes, and it is saved under its id |
| `Synchronization.GetOrCreateForEnvironment` | alien4cloud-core/src/main/java/alien4cloud/deployment/DeploymentTopologyService.java:333-337 | not-found for a missing environment or version; when both exist, exactly the outcome of get-or-create on the version's topology |
| `Substitution.SnapshotTemplatesAreTheCandidates` | alien4cloud-core/src/main/java/alien4cloud/deployment/DeploymentTopologyService.java:107-117 | in a snapshot, the template keys are exactly the ids that occur in some node's candidate set |
| `Substitution.AvailableNodeSubstitutions` | alien4cloud-core/src/main/java/alien4cloud/deployment/DeploymentTopologyService.java:102-122 | one id set per node with exactly its candidates' ids; every id maps to an offered template carrying it; types come from those templates |
| `Substitution.GetDeploymentConfiguration` | alien4cloud-core/src/main/java/alien4cloud/deployment/DeploymentTopologyService.java:129-139 | equal counts: unchanged state and topology; differing counts: the full update's outcome; the snapshot is of the topology before the update, with the resource types of its templates |
| `PropertyOverrides.GetSubstitution` | alien4cloud-core/src/main/java/alien4cloud/deployment/DeploymentTopologyService.java:238-247 | succeeds iff the node is bound and its resource exists, returning that resource; otherwise not-found |
| `PropertyOverrides.MirrorProperty` | alien4cloud-core/src/main/java/alien4cloud/deployment/DeploymentTopologyService.java:253-256 | the node's property equals the resource's value for it, the map is created if null, and no other key, node or field changes |
| `PropertyOverrides.MirrorCapabilityProperty` | alien4cloud-core/src/main/java/alien4cloud/deployment/DeploymentTopologyService.java:265-270 | the same for one capability's property, other capabilities untouched |
| `PropertyOverrides.UpdateSubstitutionProperty` | alien4cloud-core/src/main/java/alien4cloud/deployment/DeploymentTopologyService.java:249-258 | unbound node: not-found, no write; refused edit: no write; after the resource write, a missing node or map throws; with the node and map present, the outcome is exactly the input reprocessing and save of the topology mirroring the template, which succeeds iff the environment and initial topology exist; on its failure the written template stays; bindings unchanged |
| `PropertyOverrides.UpdateSubstitutionCapabilityProperty` | alien4cloud-core/src/main/java/alien4cloud/deployment/DeploymentTopologyService.java:260-272 | the same for a capability property: null-reference after the write when the node, either capability or the template's capability properties are missing; otherwise exactly the reprocessing and save of the mirrored topology |
| `PropertyOverrides.OverrideReadsBack` | alien4cloud-core/src/main/java/alien4cloud/deployment/DeploymentTopologyService.java:252-256 | if the resource stores the edit like the node setter does, the mirrored node property reads back as the value set |
| `Facade.GetDeploymentConfigurationForEnvironment` | alien4cloud-core/src/main/java/alien4cloud/deployment/DeploymentTopologyService.java:124-127 | get-or-create errors propagate with no write; otherwise exactly `getDeploymentConfiguration` of the created topology in the state get-or-create left: unchanged for equal counts, the full update's outcome for differing counts; the result ends up stored under its id |
| `Facade.PlacedTopology` | alien4cloud-core/src/main/java/alien4cloud/deployment/DeploymentTopologyService.java:285-294 | a missing environment or version, a refused placement (several groups: unsupported; unknown location; no deployer role) or a missing topology: that error; otherwise the topology generated from the placement under the version's generated id, with the orchestrator set and the group locations empty or exactly the all-nodes group on the chosen location |
| `Facade.SetLocationPolicies` | alien4cloud-core/src/main/java/alien4cloud/deployment/DeploymentTopologyService.java:285-296 | a failure of the placed topology: that error and no write; otherwise exactly `getDeploymentConfiguration` of the placed topology after its save; on success the orchestrator and the group locations are as placed, and the result is stored |

## Left out

- `TopologyLocationUtils.getLocationIds` is not part of this model. `LocationPolicies.LocationIds` reads a group's location from the last placement policy in the group's list, keyed by the group's map key. This reading is an assumption. The implicit group name `AlienConstants.GROUP_ALL` is taken as `"_A4C_ALL"`. No property depends on its spelling.
- `locationService.getMultiple` is not part of this model. `LocationPolicies.GetMultiple` reads it as returning exactly the requested ids that exist, keyed by id. This reading is an assumption. The if-and-only-if of `LocationPolicies.GetLocations`, including the failure when two groups name the same location, rests on it.
- `getByTopologyId`, `deleteByEnvironmentId` and `getLocations(DeploymentTopology)` are not modelled. The first is a lookup loop over services, the second a query-based delete, and the third relies on `TopologyLocationUtils.getLocationIdsOrFail`, which is not part of this model.
- `processForDeployment` is not modelled. It only delegates to `setUnprocessedGetInputToNullValue`, which is not part of this model.
- `save` stamps `lastUpdateDate` with the wall clock. That stamp is not modelled, because no modelled decision reads it.
- Structural merge, composition, input processing, node substitution, availability and resource-type lookup, and the resource-template setters are opaque collaborators. Their constraint and type validation and their authorisation checks appear only as "may fail before writing".
- The authorisation check is a membership test in `World.deployerLocations`. It fails with access-denied.
- Collections that Java could hold as `null` are modelled as always present: node templates, location groups, substitutions, capabilities, the `into` map of the merge, a deployment topology's location dependencies and a location's dependencies (both read when a location is assigned), and a resource template's node template (read when an override is mirrored). Nulls nested inside raw maps and lists are carried as `ROther`.
- Java mutates the caller's objects in place. The model returns new values, so an in-memory change that a failing call makes without saving is not kept.
- Four Java null-pointer exceptions are excluded by non-null types:
  - a null path in `getPropertyNameFromComplexPath`, because `PropertyUtil.PropertyNameFromComplexPath` takes a `string`;
  - a null definition entry in the definitions map of the default extraction, because `PropertyUtil.DefaultPropertyValues` and `PropertyUtil.DefaultValue` take a map of non-null definitions;
  - a null map passed straight to the map overload of `setPropertyValue`, because `PropertyUtil.SetPropertyValue` takes a `Properties`;
  - a null `lastUpdateDate` in the staleness check, because timestamps are `nat`.
- `PropertyUtil.SetNodePropertyValue`: Java keeps the empty map it installs on a node with no property map even when the map overload then throws. That happens on the invalid-argument path and on the null-reference path, where both the value and the definition are null. The model returns only the error and does not keep that map.
- `PropertyUtil.SetCapabilityPropertyValue`: the same.
- `PropertyOverrides.UpdateSubstitutionProperty`: the mirroring is stated for the topology before the opaque input reprocessing, because that step may rewrite any property.
- `PropertyOverrides.UpdateSubstitutionCapabilityProperty`: the same.
- `Synchronization.UpdateDeploymentTopology` requires a deployment topology that carries an id. The DAO's assignment of a fresh id to an id-less document is not modelled. `UpdateInputsAndSave`, `GetDeploymentConfiguration` and the two override functions require the same.
- `Facade.GetDeploymentConfigurationForEnvironment` requires every stored deployment topology to carry the id it is stored under. This is an invariant the modelled operations preserve.
- Concurrency and lost updates are not modelled. The code takes no locks.

=== FILE: deployment_model.dfy ===
/** The entities of the deployment-topology engine, the durable state it reads
    and writes, and the collaborators whose code is not part of this model. */
module DeploymentModel {
  import opened Outcomes
  import opened ToscaModel

  type Id = string

  /** The source topology template; timestamps are plain numbers and `before` is `<`. */
  datatype Topology = Topology(id: Id, lastUpdate: nat, nodes: map<string, NodeTemplate>)

  /** An infrastructure location; `dependencies` are the archives it needs. */
  datatype Location = Location(id: Id, lastUpdate: nat, dependencies: set<string>)

  /** A concrete on-demand resource offered by a location. */
  datatype ResourceTemplate = ResourceTemplate(id: Id, locationId: Id, template: NodeTemplate)

  datatype Policy =
    | LocationPlacementPolicy(name: string, locationId: Id)
    | OtherPolicy(name: string)

  datatype NodeGroup = NodeGroup(name: string, policies: seq<Policy>)

  datatype Environment = Environment(id: Id, currentVersionId: Id)

  datatype ApplicationVersion = ApplicationVersion(id: Id, topologyId: Id)

  /** The derived, location-bound topology of one (version, environment) pair.
      Fields a freshly constructed object leaves null are `Option`s. */
  datatype DeploymentTopology = DeploymentTopology(
    id: Option<Id>,
    versionId: Option<Id>,
    environmentId: Option<Id>,
    initialTopologyId: Option<Id>,
    orchestratorId: Option<Id>,
    lastSync: nat,
    nodes: map<string, NodeTemplate>,
    locationGroups: map<string, NodeGroup>,
    locationDependencies: set<string>,
    substitutedNodes: map<string, Id>)

  /** `new DeploymentTopology()` */
  function NewDeploymentTopology(): (dt: DeploymentTopology)
    ensures dt.id.None? && |dt.locationGroups| == 0 && |dt.substitutedNodes| == 0
  {
    DeploymentTopology(None, None, None, None, None, 0, map[], map[], {}, map[])
  }

  /** Everything the engine reads or writes through its DAO and services.
      `deployerLocations` are the locations the calling user holds a deployer role on. */
  datatype World = World(
    store: map<Id, DeploymentTopology>,
    topologies: map<Id, Topology>,
    environments: map<Id, Environment>,
    versions: map<Id, ApplicationVersion>,
    locations: map<Id, Location>,
    resources: map<Id, ResourceTemplate>,
    deployerLocations: set<Id>)

  /** What the node-substitution step leaves behind. */
  datatype SubstitutionResult = SubstitutionResult(nodes: map<string, NodeTemplate>, substitutedNodes: map<string, Id>)

  /** Collaborators whose code is not part of this model, as opaque functions.
      Each returns only the part of the deployment topology it rewrites. */
  datatype Collaborators = Collaborators(
    // DeploymentTopology.generateId(versionId, environmentId)
    generateId: (Id, Id) -> Id,
    // ReflectionUtil.mergeObject(topology, deploymentTopology, "id")
    merge: (Topology, DeploymentTopology) -> map<string, NodeTemplate>,
    // TopologyCompositionService.processTopologyComposition
    compose: DeploymentTopology -> map<string, NodeTemplate>,
    // processInputProperties, processGetInput, processInputArtifacts and
    // processProviderDeploymentProperties, always run together and in that order
    processInputs: (DeploymentTopology, Environment, Topology) -> map<string, NodeTemplate>,
    // DeploymentNodeSubstitutionService.processNodesSubstitution(topology, previousNodeTemplates)
    substitute: (DeploymentTopology, map<string, NodeTemplate>) -> SubstitutionResult,
    // DeploymentNodeSubstitutionService.getAvailableSubstitutions
    availableSubstitutions: DeploymentTopology -> map<string, seq<ResourceTemplate>>,
    // LocationResourceService.getLocationResourceTypes
    resourceTypes: set<ResourceTemplate> -> map<string, string>,
    // LocationResourceService.setTemplateProperty: validates, writes and returns the template
    setTemplateProperty: (ResourceTemplate, string, Option<Raw>) -> Result<ResourceTemplate>,
    // LocationResourceService.setTemplateCapabilityProperty
    setTemplateCapabilityProperty: (ResourceTemplate, string, string, Option<Raw>) -> Result<ResourceTemplate>)

  /** The new state and the value of a call that succeeded. */
  datatype Step<T> = Step(world: World, value: T)

  /** The state and the outcome of a call that may fail after it already wrote. */
  datatype Attempt<T> = Attempt(world: World, outcome: Result<T>)

  /** A `getOrFail` lookup; a null id finds nothing. */
  function GetOrFail<T>(m: map<Id, T>, id: Option<Id>): (r: Result<T>)
    ensures r.Ok? <==> id.Some? && id.value in m
    ensures r.Ok? ==> r.value == m[id.value]
    ensures r.Err? ==> r.error == NotFound
  {
    if id.Some? && id.value in m then Ok(m[id.value]) else Err(NotFound)
  }

  /** Every stored deployment topology carries the id it is stored under. */
  ghost predicate StoreConsistent(store: map<Id, DeploymentTopology>) {
    forall k :: k in store ==> store[k].id == Some(k)
  }

  /** The DAO `save`: the document replaces whatever was stored under its id. */
  function Save(w: World, dt: DeploymentTopology): (r: World)
    requires dt.id.Some?
    ensures r == w.(store := r.store)
    ensures r.store.Keys == w.store.Keys + {dt.id.value}
    ensures r.store[dt.id.value] == dt
    ensures forall k :: k in w.store && k != dt.id.value ==> r.store[k] == w.store[k]
    ensures StoreConsistent(w.store) ==> StoreConsistent(r.store)
  {
    w.(store := w.store[dt.id.value := dt])
  }
}

=== FILE: facade.dfy ===
/** The entry points that combine the pieces: the deployment configuration of
    an environment, and setting its location policies. */
module Facade {
  import opened Outcomes
  import opened DeploymentModel
  import LocationPolicies
  import Synchronization
  import Substitution

  /** `getDeploymentConfiguration(environmentId)`: get or create the
      deployment topology, then package it with its availability snapshot. */
  method GetDeploymentConfigurationForEnvironment(w: World, c: Collaborators, environmentId: Id)
    returns (w': World, r: Result<Substitution.DeploymentConfiguration>)
    requires StoreConsistent(w.store)
    ensures environmentId !in w.environments ==> w' == w && r == Err(NotFound)
    ensures Synchronization.GetOrCreateForEnvironment(w, c, environmentId).Err? ==>
      w' == w && r == Err(Synchronization.GetOrCreateForEnvironment(w, c, environmentId).error)
    ensures Synchronization.GetOrCreateForEnvironment(w, c, environmentId).Ok? ==>
      var created := Synchronization.GetOrCreateForEnvironment(w, c, environmentId).value;
      && (r.Ok? ==> Substitution.IsSnapshot(c.availableSubstitutions(created.value), r.value.substitution))
      && (!Substitution.CountsDiffer(c, created.value) ==>
            w' == created.world && r.Ok? && r.value.deploymentTopology == created.value)
      && created.value.id.Some?
      && Substitution.ConfigurationOf(created.world, c, created.value, w', r)
      && (r.Ok? ==> (&& r.value.deploymentTopology.id == created.value.id
                     && created.value.id.value in w'.store
                     && w'.store[created.value.id.value] == r.value.deploymentTopology))
  {
    var created := Synchronization.GetOrCreateForEnvironment(w, c, environmentId);
    if created.Err? {
      return w, Err(created.error);
    }
    w', r := Substitution.GetDeploymentConfiguration(created.value.world, c, created.value.value);
  }

  /** The deployment topology `setLocationPolicies` generates: a new one for
      the orchestrator, placed by the assigner and generated from the topology
      of the environment's current version. Every failure comes before any
      write: a missing environment or version, a refused placement (several
      groups, an unknown location, no deployer role), a missing topology. */
  function PlacedTopology(w: World, c: Collaborators, environmentId: Id, orchestratorId: Id,
                          mapping: Option<map<string, Id>>)
    : (r: Result<DeploymentTopology>)
    ensures environmentId !in w.environments ==> r == Err(NotFound)
    ensures environmentId in w.environments && w.environments[environmentId].currentVersionId !in w.versions ==>
      r == Err(NotFound)
    ensures environmentId in w.environments && w.environments[environmentId].currentVersionId in w.versions ==>
      var env := w.environments[environmentId];
      var version := w.versions[env.currentVersionId];
      var blank := NewDeploymentTopology().(orchestratorId := Some(orchestratorId));
      match LocationPolicies.AddLocationPolicies(w, blank, mapping)
      case Err(e) => r == Err(e)
      case Ok(placed) =>
        && (version.topologyId !in w.topologies ==> r == Err(NotFound))
        && (version.topologyId in w.topologies ==>
              r == Ok(Synchronization.Generate(c, c.generateId(version.id, environmentId), env,
                                               w.topologies[version.topologyId], placed)))
    ensures mapping.Some? && |mapping.value| > 1 ==> r.Err?
    ensures mapping.Some? && |mapping.value| > 1 && environmentId in w.environments
            && w.environments[environmentId].currentVersionId in w.versions ==>
      r == Err(UnsupportedOperation)
    ensures r.Ok? ==> r.value.id.Some? && r.value.orchestratorId == Some(orchestratorId)
    ensures r.Ok? && (mapping.None? || |mapping.value| == 0) ==> LocationPolicies.LocationIds(r.value) == map[]
    ensures r.Ok? && mapping.Some? && |mapping.value| == 1 ==>
      LocationPolicies.LocationIds(r.value)
        == map[LocationPolicies.GroupAll := LocationPolicies.SingleValue(mapping.value)]
  {
    var env :- GetOrFail(w.environments, Some(environmentId));
    var version :- GetOrFail(w.versions, Some(env.currentVersionId));
    var blank := NewDeploymentTopology().(orchestratorId := Some(orchestratorId));
    var placed :- LocationPolicies.AddLocationPolicies(w, blank, mapping);
    var topology :- GetOrFail(w.topologies, Some(version.topologyId));
    var generated := Synchronization.Generate(c, c.generateId(version.id, environmentId), env, topology, placed);
    Synchronization.LocationIdsFollowGroups(generated, placed);
    if mapping.Some? && |mapping.value| == 1 then
      LocationPolicies.AssignedLocationIsReadBack(w, blank, mapping.value);
      assert LocationPolicies.LocationIds(blank) == map[];
      Ok(generated)
    else
      assert placed == blank;
      Ok(generated)
  }

  /** `setLocationPolicies`: the placed and generated deployment topology is
      saved, then packaged by `getDeploymentConfiguration`. A failure of the
      placement or of a lookup writes nothing. */
  method SetLocationPolicies(w: World, c: Collaborators, environmentId: Id, orchestratorId: Id,
                             mapping: Option<map<string, Id>>)
    returns (w': World, r: Result<Substitution.DeploymentConfiguration>)
    ensures PlacedTopology(w, c, environmentId, orchestratorId, mapping).Err? ==>
      w' == w && r == Err(PlacedTopology(w, c, environmentId, orchestratorId, mapping).error)
    ensures PlacedTopology(w, c, environmentId, orchestratorId, mapping).Ok? ==>
      var generated := PlacedTopology(w, c, environmentId, orchestratorId, mapping).value;
      Substitution.ConfigurationOf(Save(w, generated), c, generated, w', r)
    ensures r.Ok? ==> r.value.deploymentTopology.orchestratorId == Some(orchestratorId)
    ensures r.Ok? && (mapping.None? || |mapping.value| == 0) ==>
      LocationPolicies.LocationIds(r.value.deploymentTopology) == map[]
    ensures r.Ok? && mapping.Some? && |mapping.value| == 1 ==>
      LocationPolicies.LocationIds(r.value.deploymentTopology)
        == map[LocationPolicies.GroupAll := LocationPolicies.SingleValue(mapping.value)]
    ensures r.Ok? ==> (&& r.value.deploymentTopology.id.Some?
                       && r.value.deploymentTopology.id.value in w'.store
                       && w'.store[r.value.deploymentTopology.id.value] == r.value.deploymentTopology)
  {
    var generated := PlacedTopology(w, c, environmentId, orchestratorId, mapping);
    if generated.Err? {
      return w, Err(generated.error);
    }
    var saved := Save(w, generated.value);
    w', r := Substitution.GetDeploymentConfiguration(saved, c, generated.value);
    if r.Ok? && r.value.deploymentTopology != generated.value {
      Synchronization.LocationIdsFollowGroups(r.value.deploymentTopology, generated.value);
    }
  }
}

=== FILE: java_strings.dfy ===
/** The two pieces of `java.lang.String` behaviour the property helpers rely on:
    `trim` and `split` on a one-character separator. */
module JavaStrings {

  /** `trim` removes every character whose code is at most U+0020. */
  predicate IsTrimmable(ch: char) {
    ch <= ' '
  }

  predicate AllTrimmable(s: string) {
    forall i :: 0 <= i < |s| ==> IsTrimmable(s[i])
  }

  function TrimStart(s: string): string {
    if |s| > 0 && IsTrimmable(s[0]) then TrimStart(s[1..]) else s
  }

  function TrimEnd(s: string): string {
    if |s| > 0 && IsTrimmable(s[|s| - 1]) then TrimEnd(s[..|s| - 1]) else s
  }

  function Trim(s: string): string {
    TrimEnd(TrimStart(s))
  }

  /** `s.trim().isEmpty()` */
  predicate IsBlank(s: string) {
    |Trim(s)| == 0
  }

  lemma {:induction false} TrimStartShape(s: string)
    ensures |TrimStart(s)| == 0 <==> AllTrimmable(s)
    ensures |TrimStart(s)| > 0 ==> !IsTrimmable(TrimStart(s)[0])
  {
    if |s| > 0 && IsTrimmable(s[0]) {
      TrimStartShape(s[1..]);
      assert AllTrimmable(s) <==> AllTrimmable(s[1..]) by {
        if AllTrimmable(s[1..]) {
          forall i | 0 <= i < |s|
            ensures IsTrimmable(s[i])
          {
            if i > 0 {
              assert s[i] == s[1..][i - 1];
            }
          }
        }
        if AllTrimmable(s) {
          forall i | 0 <= i < |s[1..]|
            ensures IsTrimmable(s[1..][i])
          {
            assert s[1..][i] == s[i + 1];
          }
        }
      }
    }
  }

  lemma {:induction false} TrimEndKeepsHead(s: string)
    requires |s| > 0 && !IsTrimmable(s[0])
    ensures |TrimEnd(s)| > 0
  {
    if IsTrimmable(s[|s| - 1]) {
      TrimEndKeepsHead(s[..|s| - 1]);
    }
  }

  /** A string is blank exactly when every character of it is trimmable. */
  lemma BlankIffAllTrimmable(s: string)
    ensures IsBlank(s) <==> AllTrimmable(s)
  {
    TrimStartShape(s);
    if |TrimStart(s)| > 0 {
      TrimEndKeepsHead(TrimStart(s));
    }
  }

  /** The pieces of `s` between occurrences of `sep`, empty pieces included. */
  function SplitAll(s: string, sep: char): (parts: seq<string>)
    ensures |parts| >= 1
  {
    if |s| == 0 then [""]
    else
      var rest := SplitAll(s[1..], sep);
      if s[0] == sep then [""] + rest else [[s[0]] + rest[0]] + rest[1..]
  }

  /** `split` with limit 0 drops every trailing empty piece. */
  function DropTrailingEmpty(parts: seq<string>): seq<string> {
    if |parts| == 0 then []
    else if parts[|parts| - 1] == "" then DropTrailingEmpty(parts[..|parts| - 1])
    else parts
  }

  /** `s.split(regex)` where the regex matches exactly the character `sep`:
      a string without a match comes back whole. */
  function Split(s: string, sep: char): seq<string> {
    if sep !in s then [s] else DropTrailingEmpty(SplitAll(s, sep))
  }

  /** The first piece is the text before the first separator. */
  lemma {:induction false} SplitAllHead(s: string, sep: char)
    ensures sep !in SplitAll(s, sep)[0]
    ensures SplitAll(s, sep)[0] <= s
    ensures sep in s ==> |SplitAll(s, sep)[0]| < |s| && s[|SplitAll(s, sep)[0]|] == sep
  {
    if |s| > 0 {
      SplitAllHead(s[1..], sep);
      if s[0] != sep {
        assert sep in s ==> sep in s[1..] by {
          if sep in s {
            var i :| 0 <= i < |s| && s[i] == sep;
            assert s[1..][i - 1] == sep;
          }
        }
      }
    }
  }

  predicate AllEmpty(parts: seq<string>) {
    forall i :: 0 <= i < |parts| ==> parts[i] == ""
  }

  predicate AllSeparators(s: string, sep: char) {
    forall i :: 0 <= i < |s| ==> s[i] == sep
  }

  /** Every piece is empty exactly when the string holds nothing but separators. */
  lemma {:induction false} SplitAllEmptyPieces(s: string, sep: char)
    ensures AllEmpty(SplitAll(s, sep)) <==> AllSeparators(s, sep)
  {
    if |s| > 0 {
      SplitAllEmptyPieces(s[1..], sep);
      var rest := SplitAll(s[1..], sep);
      assert AllSeparators(s, sep) <==> s[0] == sep && AllSeparators(s[1..], sep) by {
        if s[0] == sep && AllSeparators(s[1..], sep) {
          forall i | 0 <= i < |s|
            ensures s[i] == sep
          {
            if i > 0 {
              assert s[i] == s[1..][i - 1];
            }
          }
        }
        if AllSeparators(s, sep) {
          forall i | 0 <= i < |s[1..]|
            ensures s[1..][i] == sep
          {
            assert s[1..][i] == s[i + 1];
          }
        }
      }
      if s[0] == sep {
        var parts := [""] + rest;
        assert AllEmpty(parts) <==> AllEmpty(rest) by {
          if AllEmpty(rest) {
            forall i | 0 <= i < |parts|
              ensures parts[i] == ""
            {
              if i > 0 {
                assert parts[i] == rest[i - 1];
              }
            }
          }
          if AllEmpty(parts) {
            forall i | 0 <= i < |rest|
              ensures rest[i] == ""
            {
              assert rest[i] == parts[i + 1];
            }
          }
        }
      } else {
        assert SplitAll(s, sep)[0] == [s[0]] + rest[0];
      }
    }
  }

  /** Dropping trailing empties leaves nothing exactly when every piece was
      empty, and otherwise keeps the first piece. */
  lemma {:induction false} DropTrailingEmptyShape(parts: seq<string>)
    ensures |DropTrailingEmpty(parts)| == 0 <==> AllEmpty(parts)
    ensures |DropTrailingEmpty(parts)| > 0 ==> DropTrailingEmpty(parts)[0] == parts[0]
  {
    if |parts| > 0 && parts[|parts| - 1] == "" {
      var init := parts[..|parts| - 1];
      DropTrailingEmptyShape(init);
      assert AllEmpty(parts) <==> AllEmpty(init) by {
        if AllEmpty(init) {
          forall i | 0 <= i < |parts|
            ensures parts[i] == ""
          {
            if i < |parts| - 1 {
              assert parts[i] == init[i];
            }
          }
        }
      }
    }
  }
}

=== FILE: location_policies.dfy ===
/** Location lookup by group and the single-group location-placement assigner. */
module LocationPolicies {
  import opened Outcomes
  import opened DeploymentModel
  import MapFacts

  /** The implicit group holding every node (`AlienConstants.GROUP_ALL`). */
  const GroupAll: string := "_A4C_ALL"

  /** The name given to the placement policy the assigner creates. */
  const LocationPolicyName: string := "Location policy"

  /** The location a group's policy list places it on: the last placement policy wins. */
  function PlacementOf(policies: seq<Policy>): (r: Option<Id>)
    ensures r.Some? <==> exists i :: 0 <= i < |policies| && policies[i].LocationPlacementPolicy?
    ensures r.Some? ==> exists i :: 0 <= i < |policies| && policies[i] == LocationPlacementPolicy(policies[i].name, r.value)
  {
    if |policies| == 0 then None
    else
      var last := policies[|policies| - 1];
      if last.LocationPlacementPolicy? then Some(last.locationId)
      else
        var r := PlacementOf(policies[..|policies| - 1]);
        assert forall i :: 0 <= i < |policies| - 1 ==> policies[..|policies| - 1][i] == policies[i];
        r
  }

  /** The group-to-location-id mapping read back from a deployment topology. */
  function LocationIds(dt: DeploymentTopology): (r: map<string, Id>)
    ensures r.Keys <= dt.locationGroups.Keys
    ensures forall g :: g in dt.locationGroups && PlacementOf(dt.locationGroups[g].policies).Some? ==>
      g in r && r[g] == PlacementOf(dt.locationGroups[g].policies).value
  {
    map g | g in dt.locationGroups && PlacementOf(dt.locationGroups[g].policies).Some? ::
      PlacementOf(dt.locationGroups[g].policies).value
  }

  /** `locationService.getMultiple`: the requested locations that exist. */
  function GetMultiple(catalog: map<Id, Location>, ids: set<Id>): (r: map<Id, Location>)
    ensures r.Keys == ids * catalog.Keys
    ensures forall i :: i in r ==> r[i] == catalog[i]
  {
    map i | i in ids && i in catalog :: catalog[i]
  }

  /** `getLocations(Map)`: the location of every group. It fails when fewer
      locations come back than there are groups, which happens exactly when
      some id does not resolve or when two groups name the same location. */
  function GetLocations(catalog: map<Id, Location>, locationIds: map<string, Id>): (r: Result<map<string, Location>>)
    ensures r.Ok? <==> (forall g :: g in locationIds ==> locationIds[g] in catalog) && MapFacts.Injective(locationIds)
    ensures r.Err? ==> r.error == NotFound
    ensures r.Ok? ==> r.value.Keys == locationIds.Keys
    ensures r.Ok? ==> forall g :: g in r.value ==> r.value[g] == catalog[locationIds[g]]
  {
    var found := GetMultiple(catalog, locationIds.Values);
    MapFacts.ValuesCardinality(locationIds);
    assert |found| == |found.Keys|;
    MapFacts.SubsetSize(found.Keys, locationIds.Values);
    if |found| < |locationIds| then
      assert !((forall g :: g in locationIds ==> locationIds[g] in catalog) && MapFacts.Injective(locationIds)) by {
        if forall g :: g in locationIds ==> locationIds[g] in catalog {
          assert found.Keys == locationIds.Values;
        }
      }
      Err(NotFound)
    else
      MapFacts.SubsetOfSameSize(found.Keys, locationIds.Values);
      assert |locationIds| == |locationIds.Keys|;
      assert |locationIds.Values| == |locationIds.Keys|;
      assert forall g :: g in locationIds ==> locationIds[g] in locationIds.Values;
      Ok(map g | g in locationIds :: found[locationIds[g]])
  }

  /** The one value of a single-entry map. */
  function SingleValue<K, V>(m: map<K, V>): (v: V)
    requires |m| == 1
    ensures forall k :: k in m ==> m[k] == v
  {
    var k :| k in m;
    assert m.Keys == {k} by {
      MapFacts.SubsetOfSameSize({k}, m.Keys);
    }
    m[k]
  }

  /** `addLocationPolicies`: with no mapping nothing changes; more than one
      entry is refused before anything is written; a single entry places the
      implicit all-nodes group on that location, whatever group the caller named. */
  function AddLocationPolicies(w: World, dt: DeploymentTopology, mapping: Option<map<string, Id>>)
    : (r: Result<DeploymentTopology>)
    ensures mapping.None? || |mapping.value| == 0 ==> r == Ok(dt)
    ensures mapping.Some? && |mapping.value| > 1 ==> r == Err(UnsupportedOperation)
    ensures mapping.Some? && |mapping.value| == 1 ==>
      var locationId := SingleValue(mapping.value);
      && (locationId !in w.locations ==> r == Err(NotFound))
      && (locationId in w.locations && locationId !in w.deployerLocations ==> r == Err(AccessDenied))
      && (r.Ok? <==> locationId in w.locations && locationId in w.deployerLocations)
      && (r.Ok? ==>
            && r.value.locationGroups.Keys == dt.locationGroups.Keys + {GroupAll}
            && r.value.locationGroups[GroupAll].name == GroupAll
            && r.value.locationGroups[GroupAll].policies == [LocationPlacementPolicy(LocationPolicyName, locationId)]
            && (forall g :: g in dt.locationGroups && g != GroupAll ==> r.value.locationGroups[g] == dt.locationGroups[g])
            && r.value.locationDependencies == dt.locationDependencies + w.locations[locationId].dependencies
            && r.value == dt.(locationGroups := r.value.locationGroups,
                              locationDependencies := r.value.locationDependencies))
  {
    if mapping.None? || |mapping.value| == 0 then Ok(dt)
    else if |mapping.value| > 1 then Err(UnsupportedOperation)
    else
      var locationId := SingleValue(mapping.value);
      var location :- GetOrFail(w.locations, Some(locationId));
      if locationId !in w.deployerLocations then Err(AccessDenied)
      else
        var group := NodeGroup(GroupAll, [LocationPlacementPolicy(LocationPolicyName, locationId)]);
        Ok(dt.(locationDependencies := dt.locationDependencies + location.dependencies,
               locationGroups := dt.locationGroups[GroupAll := group]))
  }

  /** Read back through the location-id mapping, a successful single-entry
      assignment places the all-nodes group on the chosen location and leaves
      every other group where it was. */
  lemma {:induction false} AssignedLocationIsReadBack(w: World, dt: DeploymentTopology, mapping: map<string, Id>)
    requires |mapping| == 1
    requires AddLocationPolicies(w, dt, Some(mapping)).Ok?
    ensures LocationIds(AddLocationPolicies(w, dt, Some(mapping)).value)
         == LocationIds(dt)[GroupAll := SingleValue(mapping)]
  {
    var r := AddLocationPolicies(w, dt, Some(mapping)).value;
    var locationId := SingleValue(mapping);
    var expected := LocationIds(dt)[GroupAll := locationId];
    assert PlacementOf(r.locationGroups[GroupAll].policies) == Some(locationId);
    forall g | g in LocationIds(r)
      ensures g in expected && LocationIds(r)[g] == expected[g]
    {
      if g != GroupAll {
        assert r.locationGroups[g] == dt.locationGroups[g];
      }
    }
    forall g | g in expected
      ensures g in LocationIds(r)
    {
      if g != GroupAll {
        assert r.locationGroups[g] == dt.locationGroups[g];
      }
    }
  }
}

=== FILE: map_facts.dfy ===
/** Cardinality facts about the values of a map, used to explain what a
    size comparison between a map and a lookup result really tests. */
module MapFacts {

  /** No two keys share a value. */
  ghost predicate Injective<K, V>(m: map<K, V>) {
    forall k, k' :: k in m && k' in m && k != k' ==> m[k] != m[k']
  }

  /** A subset at least as large as its superset is the superset. */
  lemma SubsetOfSameSize<T>(a: set<T>, b: set<T>)
    requires a <= b && |a| >= |b|
    ensures a == b
  {
    assert b == a + (b - a);
    assert a !! (b - a);
    assert |b - a| == 0;
    assert b - a == {};
  }

  lemma {:induction false} SubsetSize<T>(a: set<T>, b: set<T>)
    requires a <= b
    ensures |a| <= |b|
  {
    assert b == a + (b - a);
    assert a !! (b - a);
  }

  /** A map has at most as many distinct values as keys, and exactly as
      many when it is injective. */
  lemma {:induction false} ValuesCardinality<K, V>(m: map<K, V>)
    ensures |m.Values| <= |m.Keys|
    ensures |m.Values| == |m.Keys| <==> Injective(m)
    decreases |m.Keys|
  {
    if |m.Keys| > 0 {
      var k :| k in m;
      var rest := map k' | k' in m && k' != k :: m[k'];
      assert rest.Keys == m.Keys - {k};
      ValuesCardinality(rest);
      assert m.Values == rest.Values + {m[k]} by {
        forall v | v in m.Values
          ensures v in rest.Values + {m[k]}
        {
          var k' :| k' in m && m[k'] == v;
          if k' != k {
            assert rest[k'] == v;
          }
        }
      }
      if m[k] in rest.Values {
        var k' :| k' in rest && rest[k'] == m[k];
        assert !Injective(m) by {
          assert k' in m && k' != k && m[k'] == m[k];
        }
        assert m.Values == rest.Values;
      } else {
        assert Injective(m) <==> Injective(rest) by {
          if Injective(rest) {
            forall a, b | a in m && b in m && a != b
              ensures m[a] != m[b]
            {
              if a != k && b != k {
                assert rest[a] == m[a] && rest[b] == m[b];
              } else if a == k {
                assert m[b] == rest[b];
              } else {
                assert m[a] == rest[a];
              }
            }
          }
        }
      }
    } else {
      assert m.Keys == {};
      assert m.Values == {};
    }
  }
}

=== FILE: outcomes.dfy ===
/** Failure-carrying wrappers shared by every module of the model.
    `Option` stands for a nullable Java reference; `Result` for a call
    that either returns or throws one of the exceptions in `Error`. */
module Outcomes {

  /** A nullable reference: `None` is Java's `null`. */
  datatype Option<+T> = None | Some(value: T) {

    /** The referenced value, or `default` when the reference is null. */
    function GetOr(default: T): T {
      match this
      case Some(v) => v
      case None => default
    }
  }

  /** The exceptions the modelled code raises or lets through from its collaborators. */
  datatype Error =
    | NotFound              // NotFoundException
    | UnsupportedOperation  // UnsupportedOperationException
    | InvalidArgument       // InvalidArgumentException
    | AccessDenied          // raised by the location authorisation check
    | ConstraintViolation   // constraint or type mismatch raised by the resource service
    | NullReference         // NullPointerException on a reference that is null
    | IndexOutOfBounds      // ArrayIndexOutOfBoundsException

  /** Either the value a call returns or the exception it throws. */
  datatype Result<+T> = Ok(value: T) | Err(error: Error) {

    predicate IsFailure() {
      Err?
    }

    function PropagateFailure<U>(): Result<U>
      requires Err?
    {
      Err(error)
    }

    function Extract(): T
      requires Ok?
    {
      value
    }
  }
}

=== FILE: property_overrides.dfy ===
/** Property overrides on a substituted node: the edit goes to the bound
    resource template, and the template's resulting value is mirrored onto the
    node (or its capability) before the inputs are reprocessed and saved. */
module PropertyOverrides {
  import opened Outcomes
  import opened ToscaModel
  import opened DeploymentModel
  import PropertyUtil
  import Synchronization

  /** `getSubstitution`: the resource template a node is bound to. */
  function GetSubstitution(w: World, dt: DeploymentTopology, nodeId: string): (r: Result<ResourceTemplate>)
    ensures r.Ok? <==> nodeId in dt.substitutedNodes && dt.substitutedNodes[nodeId] in w.resources
    ensures r.Err? ==> r.error == NotFound
    ensures r.Ok? ==> r.value == w.resources[dt.substitutedNodes[nodeId]]
  {
    if |dt.substitutedNodes| == 0 then Err(NotFound)
    else if nodeId !in dt.substitutedNodes then Err(NotFound)
    else GetOrFail(w.resources, Some(dt.substitutedNodes[nodeId]))
  }

  /** The node's property `name` holds what the resource template holds for it. */
  ghost predicate MirrorsProperty(node: NodeTemplate, resource: ResourceTemplate, name: string) {
    && node.properties.Some?
    && resource.template.properties.Some?
    && name in node.properties.value
    && node.properties.value[name] == Get(resource.template.properties.value, name)
  }

  /** The node's capability property holds what the resource's capability holds for it. */
  ghost predicate MirrorsCapabilityProperty(node: NodeTemplate, resource: ResourceTemplate, capabilityName: string, name: string) {
    && capabilityName in node.capabilities
    && capabilityName in resource.template.capabilities
    && node.capabilities[capabilityName].properties.Some?
    && resource.template.capabilities[capabilityName].properties.Some?
    && name in node.capabilities[capabilityName].properties.value
    && node.capabilities[capabilityName].properties.value[name]
       == Get(resource.template.capabilities[capabilityName].properties.value, name)
  }

  /** Copy the resource's value for `name` onto the node, creating the node's
      property map when it is null. No other key, node or field changes. */
  function MirrorProperty(dt: DeploymentTopology, nodeId: string, name: string, resource: ResourceTemplate)
    : (r: DeploymentTopology)
    requires nodeId in dt.nodes && resource.template.properties.Some?
    ensures r == dt.(nodes := r.nodes)
    ensures r.nodes.Keys == dt.nodes.Keys
    ensures forall n :: n in dt.nodes && n != nodeId ==> r.nodes[n] == dt.nodes[n]
    ensures MirrorsProperty(r.nodes[nodeId], resource, name)
    ensures r.nodes[nodeId] == dt.nodes[nodeId].(properties := r.nodes[nodeId].properties)
    ensures r.nodes[nodeId].properties.value.Keys == dt.nodes[nodeId].properties.GetOr(map[]).Keys + {name}
    ensures forall k :: k in dt.nodes[nodeId].properties.GetOr(map[]) && k != name ==>
      r.nodes[nodeId].properties.value[k] == dt.nodes[nodeId].properties.value[k]
  {
    var node := dt.nodes[nodeId];
    var props := node.properties.GetOr(map[]);
    var mirrored := props[name := Get(resource.template.properties.value, name)];
    dt.(nodes := dt.nodes[nodeId := node.(properties := Some(mirrored))])
  }

  /** The same for one property of one capability of the node. */
  function MirrorCapabilityProperty(dt: DeploymentTopology, nodeId: string, capabilityName: string, name: string,
                                    resource: ResourceTemplate)
    : (r: DeploymentTopology)
    requires nodeId in dt.nodes && capabilityName in dt.nodes[nodeId].capabilities
    requires capabilityName in resource.template.capabilities
    requires resource.template.capabilities[capabilityName].properties.Some?
    ensures r == dt.(nodes := r.nodes)
    ensures r.nodes.Keys == dt.nodes.Keys
    ensures forall n :: n in dt.nodes && n != nodeId ==> r.nodes[n] == dt.nodes[n]
    ensures MirrorsCapabilityProperty(r.nodes[nodeId], resource, capabilityName, name)
    ensures r.nodes[nodeId] == dt.nodes[nodeId].(capabilities := r.nodes[nodeId].capabilities)
    ensures r.nodes[nodeId].capabilities.Keys == dt.nodes[nodeId].capabilities.Keys
    ensures forall k :: k in dt.nodes[nodeId].capabilities && k != capabilityName ==>
      r.nodes[nodeId].capabilities[k] == dt.nodes[nodeId].capabilities[k]
    ensures var before := dt.nodes[nodeId].capabilities[capabilityName];
      var after := r.nodes[nodeId].capabilities[capabilityName];
      && after == before.(properties := after.properties)
      && after.properties.value.Keys == before.properties.GetOr(map[]).Keys + {name}
      && forall k :: k in before.properties.GetOr(map[]) && k != name ==>
           after.properties.value[k] == before.properties.value[k]
  {
    var node := dt.nodes[nodeId];
    var capability := node.capabilities[capabilityName];
    var props := capability.properties.GetOr(map[]);
    var source := resource.template.capabilities[capabilityName].properties.value;
    var mirrored := capability.(properties := Some(props[name := Get(source, name)]));
    dt.(nodes := dt.nodes[nodeId := node.(capabilities := node.capabilities[capabilityName := mirrored])])
  }

  /** The resource service's own save of an updated template. */
  function WriteResource(w: World, resourceId: Id, updated: ResourceTemplate): (r: World)
    ensures r == w.(resources := r.resources)
    ensures r.resources == w.resources[resourceId := updated]
  {
    w.(resources := w.resources[resourceId := updated])
  }

  /** `updateSubstitutionProperty`. Without a binding for the node it fails with
      not-found and writes nothing; a refused edit writes nothing either. Once
      the resource template is written, a node missing from the topology or a
      template without properties throws; otherwise the topology that is saved
      is the inputs' reprocessing of one that mirrors the template, with the
      substitution bindings untouched. When that last save fails (a missing
      environment or initial topology), the written template stays. */
  function UpdateSubstitutionProperty(w: World, c: Collaborators, dt: DeploymentTopology, nodeId: string,
                                      name: string, value: Option<Raw>)
    : (r: Attempt<DeploymentTopology>)
    requires dt.id.Some?
    ensures |dt.substitutedNodes| == 0 || nodeId !in dt.substitutedNodes ==> r == Attempt(w, Err(NotFound))
    ensures GetSubstitution(w, dt, nodeId).Err? ==> r == Attempt(w, Err(NotFound))
    ensures GetSubstitution(w, dt, nodeId).Ok? ==>
      var resourceId := dt.substitutedNodes[nodeId];
      match c.setTemplateProperty(w.resources[resourceId], name, value)
      case Err(e) => r == Attempt(w, Err(e))
      case Ok(updated) =>
        var written := WriteResource(w, resourceId, updated);
        && (nodeId !in dt.nodes || updated.template.properties.None? ==> r == Attempt(written, Err(NullReference)))
        && (nodeId in dt.nodes && updated.template.properties.Some? ==>
              var mirrored := MirrorProperty(dt, nodeId, name, updated);
              && r == (match Synchronization.UpdateInputsAndSave(written, c, mirrored)
                       case Err(e) => Attempt(written, Err(e))
                       case Ok(step) => Attempt(step.world, Ok(step.value)))
              && (r.outcome.Ok? <==> (&& dt.environmentId.Some? && dt.environmentId.value in w.environments
                                      && dt.initialTopologyId.Some? && dt.initialTopologyId.value in w.topologies))
              && (r.outcome.Err? ==> r.world == written && r.outcome.error == NotFound))
        && (r.outcome.Ok? ==>
              && nodeId in dt.nodes && updated.template.properties.Some?
              && var mirrored := MirrorProperty(dt, nodeId, name, updated);
              && MirrorsProperty(mirrored.nodes[nodeId], updated, name)
              && Synchronization.UpdateInputsAndSave(written, c, mirrored) == Ok(Step(r.world, r.outcome.value))
              && r.outcome.value.substitutedNodes == dt.substitutedNodes
              && r.world.resources[resourceId] == updated)
  {
    match GetSubstitution(w, dt, nodeId)
    case Err(e) => Attempt(w, Err(e))
    case Ok(resource) =>
      var resourceId := dt.substitutedNodes[nodeId];
      match c.setTemplateProperty(resource, name, value)
      case Err(e) => Attempt(w, Err(e))
      case Ok(updated) =>
        var written := WriteResource(w, resourceId, updated);
        if nodeId !in dt.nodes || updated.template.properties.None? then Attempt(written, Err(NullReference))
        else
          var mirrored := MirrorProperty(dt, nodeId, name, updated);
          match Synchronization.UpdateInputsAndSave(written, c, mirrored)
          case Err(e) => Attempt(written, Err(e))
          case Ok(step) => Attempt(step.world, Ok(step.value))
  }

  /** `updateSubstitutionCapabilityProperty`: the same shape, on the named
      capability of the node and of the bound resource template. */
  function UpdateSubstitutionCapabilityProperty(w: World, c: Collaborators, dt: DeploymentTopology, nodeId: string,
                                                capabilityName: string, name: string, value: Option<Raw>)
    : (r: Attempt<DeploymentTopology>)
    requires dt.id.Some?
    ensures |dt.substitutedNodes| == 0 || nodeId !in dt.substitutedNodes ==> r == Attempt(w, Err(NotFound))
    ensures GetSubstitution(w, dt, nodeId).Err? ==> r == Attempt(w, Err(NotFound))
    ensures GetSubstitution(w, dt, nodeId).Ok? ==>
      var resourceId := dt.substitutedNodes[nodeId];
      match c.setTemplateCapabilityProperty(w.resources[resourceId], capabilityName, name, value)
      case Err(e) => r == Attempt(w, Err(e))
      case Ok(updated) =>
        var written := WriteResource(w, resourceId, updated);
        && (|| nodeId !in dt.nodes
            || capabilityName !in dt.nodes[nodeId].capabilities
            || capabilityName !in updated.template.capabilities
            || updated.template.capabilities[capabilityName].properties.None?
            ==> r == Attempt(written, Err(NullReference)))
        && (&& nodeId in dt.nodes
            && capabilityName in dt.nodes[nodeId].capabilities
            && capabilityName in updated.template.capabilities
            && updated.template.capabilities[capabilityName].properties.Some?
            ==> var mirrored := MirrorCapabilityProperty(dt, nodeId, capabilityName, name, updated);
                && r == (match Synchronization.UpdateInputsAndSave(written, c, mirrored)
                         case Err(e) => Attempt(written, Err(e))
                         case Ok(step) => Attempt(step.world, Ok(step.value)))
                && (r.outcome.Ok? <==> (&& dt.environmentId.Some? && dt.environmentId.value in w.environments
                                        && dt.initialTopologyId.Some? && dt.initialTopologyId.value in w.topologies))
                && (r.outcome.Err? ==> r.world == written && r.outcome.error == NotFound))
        && (r.outcome.Ok? ==>
              && nodeId in dt.nodes && capabilityName in dt.nodes[nodeId].capabilities
              && capabilityName in updated.template.capabilities
              && updated.template.capabilities[capabilityName].properties.Some?
              && var mirrored := MirrorCapabilityProperty(dt, nodeId, capabilityName, name, updated);
              && MirrorsCapabilityProperty(mirrored.nodes[nodeId], updated, capabilityName, name)
              && Synchronization.UpdateInputsAndSave(written, c, mirrored) == Ok(Step(r.world, r.outcome.value))
              && r.outcome.value.substitutedNodes == dt.substitutedNodes
              && r.world.resources[resourceId] == updated)
  {
    match GetSubstitution(w, dt, nodeId)
    case Err(e) => Attempt(w, Err(e))
    case Ok(resource) =>
      var resourceId := dt.substitutedNodes[nodeId];
      match c.setTemplateCapabilityProperty(resource, capabilityName, name, value)
      case Err(e) => Attempt(w, Err(e))
      case Ok(updated) =>
        var written := WriteResource(w, resourceId, updated);
        if || nodeId !in dt.nodes
           || capabilityName !in dt.nodes[nodeId].capabilities
           || capabilityName !in updated.template.capabilities
           || updated.template.capabilities[capabilityName].properties.None?
        then Attempt(written, Err(NullReference))
        else
          var mirrored := MirrorCapabilityProperty(dt, nodeId, capabilityName, name, updated);
          match Synchronization.UpdateInputsAndSave(written, c, mirrored)
          case Err(e) => Attempt(written, Err(e))
          case Ok(step) => Attempt(step.world, Ok(step.value))
  }

  /** Override round trip: when the resource service stores the edit the way
      the node overload of the property setter does, the node's mirrored
      property reads back as the value that was set. */
  lemma OverrideReadsBack(dt: DeploymentTopology, nodeId: string, name: string, v: Raw,
                          resource: ResourceTemplate, def: Option<PropertyDefinition>)
    requires nodeId in dt.nodes
    requires PropertyUtil.SetNodePropertyValue(resource.template, def, name, Some(v)).Ok?
    ensures var updated := resource.(template := PropertyUtil.SetNodePropertyValue(resource.template, def, name, Some(v)).value);
      var node := MirrorProperty(dt, nodeId, name, updated).nodes[nodeId];
      && node.properties.value[name].Some?
      && PropertyUtil.ToRaw(node.properties.value[name].value) == v
  {
  }
}

=== FILE: property_util.dfy ===
/** The property-value helpers: default extraction from property definitions,
    complex-path heads, the typed setter and the filtered, null-aware merge. */
module PropertyUtil {
  import opened Outcomes
  import opened ToscaModel
  import JavaStrings

  /** The entry a definition contributes to a default map: its default as a
      scalar, or null when the definition has no default or a blank one. */
  function DefaultEntry(d: PropertyDefinition): (r: Option<PropertyValue>)
    ensures r.Some? <==> d.default.Some? && !JavaStrings.AllTrimmable(d.default.value)
    ensures r.Some? ==> r.value == Scalar(d.default.value)
  {
    match d.default
    case None => None
    case Some(text) =>
      JavaStrings.BlankIffAllTrimmable(text);
      if JavaStrings.IsBlank(text) then None else Some(Scalar(text))
  }

  /** `getDefaultPropertyValuesFromPropertyDefinitions`: one entry per definition. */
  function DefaultPropertyValues(defs: Option<map<string, PropertyDefinition>>): (r: Option<Properties>)
    ensures r.None? <==> defs.None?
    ensures r.Some? ==> r.value.Keys == defs.value.Keys
    ensures r.Some? ==> forall k :: k in r.value ==>
      (r.value[k].Some? <==> defs.value[k].default.Some? && !JavaStrings.AllTrimmable(defs.value[k].default.value))
    ensures r.Some? ==> forall k :: k in r.value && r.value[k].Some? ==>
      r.value[k].value == Scalar(defs.value[k].default.value)
  {
    match defs
    case None => None
    case Some(m) => Some(map k | k in m :: DefaultEntry(m[k]))
  }

  /** `getDefaultValueFromPropertyDefinitions`: the raw default of one definition. */
  function DefaultValue(name: string, defs: Option<map<string, PropertyDefinition>>): (r: Option<string>)
    ensures r.Some? ==> defs.Some? && name in defs.value && defs.value[name].default == r
    ensures defs.Some? && name in defs.value ==> r == defs.value[name].default
  {
    if defs.Some? && |defs.value| > 0 && name in defs.value then defs.value[name].default else None
  }

  /** The default map holds a scalar for `name` exactly when the single lookup
      finds a default that is not blank, and that scalar wraps the lookup's text. */
  lemma DefaultValueAgreesWithDefaultMap(name: string, defs: map<string, PropertyDefinition>)
    requires name in defs
    ensures DefaultPropertyValues(Some(defs)).value[name].Some?
        <==> DefaultValue(name, Some(defs)).Some? && !JavaStrings.IsBlank(DefaultValue(name, Some(defs)).value)
    ensures DefaultPropertyValues(Some(defs)).value[name].Some? ==>
      DefaultPropertyValues(Some(defs)).value[name].value == Scalar(DefaultValue(name, Some(defs)).value)
  {
    if defs[name].default.Some? {
      JavaStrings.BlankIffAllTrimmable(defs[name].default.value);
    }
  }

  /** `getPropertyNameFromComplexPath`: the property a dotted path starts with,
      null for a path without a dot. A path made only of dots splits into no
      piece at all, and reading the first piece fails. */
  function PropertyNameFromComplexPath(path: string): (r: Result<Option<string>>)
    ensures r == Ok(None) <==> '.' !in path
    ensures r.Err? <==> |path| > 0 && JavaStrings.AllSeparators(path, '.')
    ensures r.Err? ==> r.error == IndexOutOfBounds
    ensures r.Ok? && r.value.Some? ==>
      '.' !in r.value.value && r.value.value + "." <= path
  {
    if '.' in path then
      var parts := JavaStrings.Split(path, '.');
      JavaStrings.SplitAllHead(path, '.');
      JavaStrings.SplitAllEmptyPieces(path, '.');
      JavaStrings.DropTrailingEmptyShape(JavaStrings.SplitAll(path, '.'));
      if |parts| == 0 then Err(IndexOutOfBounds) else Ok(Some(parts[0]))
    else
      Ok(None)
  }

  /** The raw object a typed value wraps. */
  function ToRaw(pv: PropertyValue): (r: Raw)
    ensures !r.ROther?
  {
    match pv
    case Scalar(s) => RStr(s)
    case Complex(m) => RMap(m)
    case ListV(l) => RList(l)
  }

  /** The type dispatch of `setPropertyValue`: a String becomes a scalar, a Map
      a complex value, a List a list value; anything else is rejected. */
  function ToPropertyValue(v: Raw): (r: Result<PropertyValue>)
    ensures r.Err? <==> v.ROther?
    ensures r.Err? ==> r.error == InvalidArgument
    ensures r.Ok? ==> ToRaw(r.value) == v
  {
    match v
    case RStr(s) => Ok(Scalar(s))
    case RMap(m) => Ok(Complex(m))
    case RList(l) => Ok(ListV(l))
    case ROther => Err(InvalidArgument)
  }

  /** Dispatch and unwrapping are inverse to each other. */
  lemma DispatchRoundTrip(pv: PropertyValue)
    ensures ToPropertyValue(ToRaw(pv)) == Ok(pv)
  {
  }

  /** `setPropertyValue` on a map. A null value falls back to the definition's
      default (reading it from a null definition throws); a null default stores
      null under the key. Only `name` is ever written. */
  function SetPropertyValue(props: Properties, def: Option<PropertyDefinition>, name: string, value: Option<Raw>)
    : (r: Result<Properties>)
    ensures r.Ok? ==> r.value.Keys == props.Keys + {name}
    ensures r.Ok? ==> forall k :: k in props && k != name ==> r.value[k] == props[k]
    ensures value.None? && def.None? ==> r == Err(NullReference)
    ensures value.Some? ==> (r.Err? <==> value.value.ROther?)
    ensures value.Some? && r.Err? ==> r.error == InvalidArgument
    ensures value.Some? && r.Ok? ==> r.value[name].Some? && ToRaw(r.value[name].value) == value.value
    ensures value.None? && def.Some? ==> r.Ok?
    ensures value.None? && def.Some? && def.value.default.None? ==> r.value[name].None?
    ensures value.None? && def.Some? && def.value.default.Some? ==>
      r.value[name] == Some(Scalar(def.value.default.value))
  {
    var effective :- if value.Some? then Ok(value)
                     else if def.None? then Err(NullReference)
                     else Ok(match def.value.default case None => None case Some(s) => Some(RStr(s)));
    match effective
    case None => Ok(props[name := None])
    case Some(v) =>
      var pv :- ToPropertyValue(v);
      Ok(props[name := Some(pv)])
  }

  /** `setPropertyValue` on a node template: a null property map is replaced by
      an empty one, then the map overload applies; nothing else of the node changes. */
  function SetNodePropertyValue(node: NodeTemplate, def: Option<PropertyDefinition>, name: string, value: Option<Raw>)
    : (r: Result<NodeTemplate>)
    ensures r.Ok? <==> SetPropertyValue(node.properties.GetOr(map[]), def, name, value).Ok?
    ensures r.Ok? ==> r.value == node.(properties := Some(SetPropertyValue(node.properties.GetOr(map[]), def, name, value).value))
    ensures r.Err? ==> r.error == SetPropertyValue(node.properties.GetOr(map[]), def, name, value).error
  {
    var props :- SetPropertyValue(node.properties.GetOr(map[]), def, name, value);
    Ok(node.(properties := Some(props)))
  }

  /** `setCapabilityPropertyValue`: the same, on a capability. */
  function SetCapabilityPropertyValue(capability: Capability, def: Option<PropertyDefinition>, name: string, value: Option<Raw>)
    : (r: Result<Capability>)
    ensures r.Ok? <==> SetPropertyValue(capability.properties.GetOr(map[]), def, name, value).Ok?
    ensures r.Ok? ==> r.value == capability.(properties := Some(SetPropertyValue(capability.properties.GetOr(map[]), def, name, value).value))
    ensures r.Err? ==> r.error == SetPropertyValue(capability.properties.GetOr(map[]), def, name, value).error
  {
    var props :- SetPropertyValue(capability.properties.GetOr(map[]), def, name, value);
    Ok(capability.(properties := Some(props)))
  }

  /** A node whose property map is null ends up with exactly the one key set. */
  lemma SetOnNullMapCreatesSingleKey(node: NodeTemplate, def: Option<PropertyDefinition>, name: string, value: Option<Raw>)
    requires node.properties.None?
    requires SetNodePropertyValue(node, def, name, value).Ok?
    ensures SetNodePropertyValue(node, def, name, value).value.properties.value.Keys == {name}
  {
  }

  /** The keys of `from` that `mergeProperties` looks at. */
  function Considered(from: Properties, keysToConsider: Option<set<string>>): (ks: set<string>)
    ensures ks <= from.Keys
    ensures keysToConsider.Some? ==> ks <= keysToConsider.value
  {
    set k | k in from && (keysToConsider.None? || k in keysToConsider.value)
  }

  /** `mergeProperties`: copies the considered entries of `from` into `into`,
      except that a null never replaces a non-null value already there. */
  function MergeProperties(from: Option<Properties>, into: Properties, keysToConsider: Option<set<string>>)
    : (r: Properties)
    ensures from.None? || |from.value| == 0 ==> r == into
    ensures from.Some? ==> r.Keys == into.Keys + Considered(from.value, keysToConsider)
    ensures from.Some? ==> forall k :: k in into && k !in Considered(from.value, keysToConsider) ==> r[k] == into[k]
    ensures from.Some? ==> forall k :: k in Considered(from.value, keysToConsider) && from.value[k].Some? ==>
      r[k] == from.value[k]
    ensures from.Some? ==> forall k :: k in Considered(from.value, keysToConsider) && from.value[k].None? ==>
      r[k] == Get(into, k)
  {
    match from
    case None => into
    case Some(f) =>
      if |f| == 0 then into
      else
        var ks := Considered(f, keysToConsider);
        map k | k in into.Keys + ks ::
          if k in ks && (f[k].Some? || Get(into, k).None?) then f[k] else into[k]
  }

  /** Merging the same map a second time changes nothing. */
  lemma MergeIdempotent(from: Option<Properties>, into: Properties, keysToConsider: Option<set<string>>)
    ensures MergeProperties(from, MergeProperties(from, into, keysToConsider), keysToConsider)
         == MergeProperties(from, into, keysToConsider)
  {
    var once := MergeProperties(from, into, keysToConsider);
    var twice := MergeProperties(from, once, keysToConsider);
    if from.Some? && |from.value| > 0 {
      assert twice.Keys == once.Keys;
      forall k | k in once
        ensures twice[k] == once[k]
      {
      }
    }
  }

  /** A key filter is the same as merging only the filtered part of `from`. */
  lemma MergeFilterIsRestriction(from: Properties, into: Properties, keys: set<string>)
    ensures MergeProperties(Some(from), into, Some(keys))
         == MergeProperties(Some(map k | k in from && k in keys :: from[k]), into, None)
  {
    var restricted := map k | k in from && k in keys :: from[k];
    var ks := Considered(from, Some(keys));
    assert ks == Considered(restricted, None);
    var filtered := MergeProperties(Some(from), into, Some(keys));
    var plain := MergeProperties(Some(restricted), into, None);
    assert filtered.Keys == plain.Keys;
    forall k | k in filtered
      ensures filtered[k] == plain[k]
    {
      if k in ks {
        assert restricted[k] == from[k];
      }
    }
  }
}

=== FILE: substitution.dfy ===
/** The availability snapshot of substitutable nodes and the deployment
    configuration built from it. */
module Substitution {
  import opened Outcomes
  import opened DeploymentModel
  import Synchronization

  /** What the resolver reports as available: candidate ids per node, the
      candidate templates by id, and their types. */
  datatype SubstitutionConfiguration = SubstitutionConfiguration(
    availableSubstitutions: map<string, set<Id>>,
    substitutionsTemplates: map<Id, ResourceTemplate>,
    substitutionTypes: map<string, string>)

  /** A deployment topology bundled with its availability snapshot. */
  datatype DeploymentConfiguration = DeploymentConfiguration(
    deploymentTopology: DeploymentTopology,
    substitution: SubstitutionConfiguration)

  /** The ids of a candidate list. */
  function IdsOf(candidates: seq<ResourceTemplate>): set<Id> {
    set t | t in candidates :: t.id
  }

  /** Every template offered for some node. */
  ghost function Offered(available: map<string, seq<ResourceTemplate>>): set<ResourceTemplate> {
    set n, t | n in available && t in available[n] :: t
  }

  /** `sc` is a faithful snapshot of the candidate lists: one id set per node,
      holding exactly the ids of its candidates, and every such id resolving
      to an offered template that carries it. */
  ghost predicate IsSnapshot(available: map<string, seq<ResourceTemplate>>, sc: SubstitutionConfiguration) {
    && sc.availableSubstitutions.Keys == available.Keys
    && (forall n :: n in available ==> sc.availableSubstitutions[n] == IdsOf(available[n]))
    && (forall n, i :: n in sc.availableSubstitutions && i in sc.availableSubstitutions[n] ==>
          i in sc.substitutionsTemplates)
    && (forall i :: i in sc.substitutionsTemplates ==>
          sc.substitutionsTemplates[i].id == i && sc.substitutionsTemplates[i] in Offered(available))
  }

  /** The templates of a snapshot are keyed by exactly the ids that occur in it. */
  lemma SnapshotTemplatesAreTheCandidates(available: map<string, seq<ResourceTemplate>>, sc: SubstitutionConfiguration, i: Id)
    requires IsSnapshot(available, sc)
    ensures i in sc.substitutionsTemplates <==>
      exists n :: n in sc.availableSubstitutions && i in sc.availableSubstitutions[n]
  {
    if i in sc.substitutionsTemplates {
      var t := sc.substitutionsTemplates[i];
      var n :| n in available && t in available[n];
      assert i in IdsOf(available[n]);
    }
  }

  /** `getAvailableNodeSubstitutions`: one pass over the candidate lists. */
  method AvailableNodeSubstitutions(c: Collaborators, dt: DeploymentTopology) returns (sc: SubstitutionConfiguration)
    ensures IsSnapshot(c.availableSubstitutions(dt), sc)
    ensures sc.substitutionTypes == c.resourceTypes(sc.substitutionsTemplates.Values)
  {
    var available := c.availableSubstitutions(dt);
    var ids: map<string, set<Id>> := map[];
    var templates: map<Id, ResourceTemplate> := map[];
    var remaining := available.Keys;
    while remaining != {}
      invariant remaining <= available.Keys
      invariant ids.Keys == available.Keys - remaining
      invariant forall n :: n in ids ==> ids[n] == IdsOf(available[n])
      invariant forall n, i :: n in ids && i in ids[n] ==> i in templates
      invariant forall i :: i in templates ==> templates[i].id == i && templates[i] in Offered(available)
      decreases remaining
    {
      var node :| node in remaining;
      var candidates := available[node];
      // every node is visited once, so the lookup of its id set always starts empty
      var existingIds: set<Id> := {};
      var j := 0;
      while j < |candidates|
        invariant 0 <= j <= |candidates|
        invariant existingIds == IdsOf(candidates[..j])
        invariant forall i :: i in existingIds ==> i in templates
        invariant forall n, i :: n in ids && i in ids[n] ==> i in templates
        invariant forall i :: i in templates ==> templates[i].id == i && templates[i] in Offered(available)
      {
        var template := candidates[j];
        assert template in Offered(available) by {
          assert node in available && template in available[node];
        }
        assert candidates[..j + 1] == candidates[..j] + [template];
        existingIds := existingIds + {template.id};
        templates := templates[template.id := template];
        j := j + 1;
      }
      assert candidates[..j] == candidates;
      ids := ids[node := existingIds];
      remaining := remaining - {node};
    }
    sc := SubstitutionConfiguration(ids, templates, c.resourceTypes(templates.Values));
  }

  /** The count-based trigger: a full update runs when the number of nodes
      in the availability map differs from the number of existing substitutions. */
  predicate CountsDiffer(c: Collaborators, dt: DeploymentTopology) {
    |c.availableSubstitutions(dt)| != |dt.substitutedNodes|
  }

  /** What `getDeploymentConfiguration(DeploymentTopology)` does, given the
      state `w` it starts from and the state `w'` and outcome `r` it ends
      with: equal counts write nothing and return `dt`; differing counts give
      the full update's outcome; any configuration returned carries the
      snapshot of `dt` as it was before the update. */
  ghost predicate ConfigurationOf(w: World, c: Collaborators, dt: DeploymentTopology,
                                  w': World, r: Result<DeploymentConfiguration>)
    requires dt.id.Some?
  {
    && (r.Ok? ==> IsSnapshot(c.availableSubstitutions(dt), r.value.substitution))
    && (r.Ok? ==> r.value.substitution.substitutionTypes
                  == c.resourceTypes(r.value.substitution.substitutionsTemplates.Values))
    && (!CountsDiffer(c, dt) ==> w' == w && r.Ok? && r.value.deploymentTopology == dt)
    && (CountsDiffer(c, dt) ==>
          match Synchronization.UpdateDeploymentTopology(w, c, dt)
          case Err(e) => w' == w && r == Err(e)
          case Ok(step) => w' == step.world && r.Ok? && r.value.deploymentTopology == step.value)
  }

  /** `getDeploymentConfiguration(DeploymentTopology)`. The snapshot is taken
      before the update it may trigger and is returned as it was taken. */
  method GetDeploymentConfiguration(w: World, c: Collaborators, dt: DeploymentTopology)
    returns (w': World, r: Result<DeploymentConfiguration>)
    requires dt.id.Some?
    ensures r.Ok? ==> IsSnapshot(c.availableSubstitutions(dt), r.value.substitution)
    ensures r.Ok? ==> r.value.substitution.substitutionTypes
                      == c.resourceTypes(r.value.substitution.substitutionsTemplates.Values)
    ensures !CountsDiffer(c, dt) ==> w' == w && r.Ok? && r.value.deploymentTopology == dt
    ensures CountsDiffer(c, dt) ==>
      match Synchronization.UpdateDeploymentTopology(w, c, dt)
      case Err(e) => w' == w && r == Err(e)
      case Ok(step) => w' == step.world && r.Ok? && r.value.deploymentTopology == step.value
  {
    var sc := AvailableNodeSubstitutions(c, dt);
    assert |sc.availableSubstitutions| == |c.availableSubstitutions(dt)| by {
      assert sc.availableSubstitutions.Keys == c.availableSubstitutions(dt).Keys;
    }
    if |sc.availableSubstitutions| != |dt.substitutedNodes| {
      var updated := Synchronization.UpdateDeploymentTopology(w, c, dt);
      if updated.Err? {
        return w, Err(updated.error);
      }
      return updated.value.world, Ok(DeploymentConfiguration(updated.value.value, sc));
    }
    return w, Ok(DeploymentConfiguration(dt, sc));
  }
}

=== FILE: synchronization.dfy ===
/** Staleness detection, regeneration of a deployment topology from its
    source topology, and the get-or-create decision that ties them together. */
module Synchronization {
  import opened Outcomes
  import opened DeploymentModel
  import LocationPolicies
  import MapFacts

  /** A deployment topology is stale when its sync date is strictly before the
      topology's last update or before the last update of one of its locations. */
  predicate Stale(dt: DeploymentTopology, locations: set<Location>, topology: Topology) {
    || dt.lastSync < topology.lastUpdate
    || exists l :: l in locations && dt.lastSync < l.lastUpdate
  }

  /** `checkIfTopologyOrLocationHasChanged`: the topology first, then the
      locations one by one, stopping at the first one updated after the sync. */
  method CheckIfTopologyOrLocationHasChanged(dt: DeploymentTopology, locations: set<Location>, topology: Topology)
    returns (changed: bool)
    ensures changed <==> Stale(dt, locations, topology)
    ensures !changed ==> topology.lastUpdate <= dt.lastSync
    ensures !changed ==> forall l :: l in locations ==> l.lastUpdate <= dt.lastSync
  {
    if dt.lastSync < topology.lastUpdate {
      return true;
    }
    var remaining := locations;
    while remaining != {}
      invariant remaining <= locations
      invariant forall l :: l in locations - remaining ==> l.lastUpdate <= dt.lastSync
      decreases remaining
    {
      var l :| l in remaining;
      if dt.lastSync < l.lastUpdate {
        return true;
      }
      remaining := remaining - {l};
    }
    return false;
  }

  /** The four input processors, run in sequence over the node templates. */
  function ProcessInputs(c: Collaborators, dt: DeploymentTopology, env: Environment, topology: Topology)
    : (r: DeploymentTopology)
    ensures r == dt.(nodes := r.nodes)
    ensures r.nodes == c.processInputs(dt, env, topology)
  {
    dt.(nodes := c.processInputs(dt, env, topology))
  }

  /** The rebuild at the heart of an update: merge the topology into the
      deployment topology (all but the id), compose, then process the inputs.
      Only the node templates change. */
  function Rebuild(c: Collaborators, dt: DeploymentTopology, topology: Topology, env: Environment)
    : (r: DeploymentTopology)
    ensures r == dt.(nodes := r.nodes)
    ensures r.nodes == c.processInputs(dt.(nodes := c.compose(dt.(nodes := c.merge(topology, dt)))), env, topology)
  {
    var merged := dt.(nodes := c.merge(topology, dt));
    var composed := merged.(nodes := c.compose(merged));
    ProcessInputs(c, composed, env, topology)
  }

  /** `doUpdateDeploymentTopology` without its final save: stamp the sync date
      with the topology's last update, remember the previous node templates,
      merge, compose, process inputs, then re-run substitution with the
      previous node templates as a hint. Only the sync date, the node templates
      and the substitution map change. */
  function DoUpdate(c: Collaborators, dt: DeploymentTopology, topology: Topology, env: Environment)
    : (r: DeploymentTopology)
    ensures r.lastSync == topology.lastUpdate
    ensures r == dt.(lastSync := r.lastSync, nodes := r.nodes, substitutedNodes := r.substitutedNodes)
    ensures var substitution := c.substitute(Rebuild(c, dt.(lastSync := topology.lastUpdate), topology, env), dt.nodes);
      r.nodes == substitution.nodes && r.substitutedNodes == substitution.substitutedNodes
  {
    var previousNodes := dt.nodes;
    var stamped := dt.(lastSync := topology.lastUpdate);
    var processed := Rebuild(c, stamped, topology, env);
    var substitution := c.substitute(processed, previousNodes);
    processed.(nodes := substitution.nodes, substitutedNodes := substitution.substitutedNodes)
  }

  /** `generateDeploymentTopology` without its final save: set the version,
      environment, initial topology and id, then update. */
  function Generate(c: Collaborators, id: Id, env: Environment, topology: Topology, dt: DeploymentTopology)
    : (r: DeploymentTopology)
    ensures r.id == Some(id)
    ensures r.versionId == Some(env.currentVersionId)
    ensures r.environmentId == Some(env.id)
    ensures r.initialTopologyId == Some(topology.id)
    ensures r.lastSync == topology.lastUpdate
    ensures r.orchestratorId == dt.orchestratorId
    ensures r.locationGroups == dt.locationGroups
    ensures r.locationDependencies == dt.locationDependencies
  {
    var identified := dt.(versionId := Some(env.currentVersionId),
                          environmentId := Some(env.id),
                          initialTopologyId := Some(topology.id),
                          id := Some(id));
    DoUpdate(c, identified, topology, env)
  }

  /** Right after a regeneration the topology itself no longer makes the result
      stale; a location does exactly when it was updated after the topology,
      because the sync date is taken from the topology alone. */
  lemma FreshnessAfterGenerate(c: Collaborators, id: Id, env: Environment, topology: Topology,
                               dt: DeploymentTopology, locations: set<Location>)
    ensures !Stale(Generate(c, id, env, topology, dt), locations, topology)
        <==> forall l :: l in locations ==> l.lastUpdate <= topology.lastUpdate
  {
  }

  /** The stored location ids all resolve, and no two groups share one. */
  ghost predicate LocationsResolve(w: World, dt: DeploymentTopology) {
    var ids := LocationPolicies.LocationIds(dt);
    && (forall g :: g in ids ==> ids[g] in w.locations)
    && MapFacts.Injective(ids)
  }

  /** The locations the stored location ids name. */
  ghost function ResolvedLocations(w: World, dt: DeploymentTopology): set<Location>
    requires LocationsResolve(w, dt)
  {
    var ids := LocationPolicies.LocationIds(dt);
    set g | g in ids :: w.locations[ids[g]]
  }

  /** The locations `getOrCreateDeploymentTopology` checks a stored deployment
      topology against: none when it names no location, otherwise the result
      of the location lookup, which fails exactly when the ids do not resolve. */
  function StoredLocations(w: World, dt: DeploymentTopology): (r: Result<set<Location>>)
    ensures r.Ok? <==> LocationsResolve(w, dt)
    ensures r.Ok? ==> r.value == ResolvedLocations(w, dt)
  {
    var locationIds := LocationPolicies.LocationIds(dt);
    if |locationIds| == 0 then
      assert LocationsResolve(w, dt);
      assert ResolvedLocations(w, dt) == {};
      Ok({})
    else
      var lookup :- LocationPolicies.GetLocations(w.locations, locationIds);
      LookupNamesResolvedLocations(w, dt, lookup);
      Ok(lookup.Values)
  }

  /** A location lookup keyed like the stored ids holds exactly the resolved locations. */
  lemma LookupNamesResolvedLocations(w: World, dt: DeploymentTopology, lookup: map<string, Location>)
    requires LocationsResolve(w, dt)
    requires lookup.Keys == LocationPolicies.LocationIds(dt).Keys
    requires forall g :: g in lookup ==> lookup[g] == w.locations[LocationPolicies.LocationIds(dt)[g]]
    ensures lookup.Values == ResolvedLocations(w, dt)
  {
    var ids := LocationPolicies.LocationIds(dt);
    forall l | l in ResolvedLocations(w, dt)
      ensures l in lookup.Values
    {
      var g :| g in ids && l == w.locations[ids[g]];
      assert lookup[g] == l;
    }
    forall l | l in lookup.Values
      ensures l in ResolvedLocations(w, dt)
    {
      var g :| g in lookup && lookup[g] == l;
      assert g in ids;
    }
  }

  /** The deployment topology `getOrCreateDeploymentTopology` looks up. */
  function DeploymentId(c: Collaborators, env: Environment): Id {
    c.generateId(env.currentVersionId, env.id)
  }

  /** `getOrCreateDeploymentTopology(environment, topologyId)`. A missing
      deployment topology, or one whose locations no longer resolve, is
      generated from a fresh object (the not-found of the location lookup is
      swallowed); a stale one is regenerated in place; otherwise the stored one
      is returned and nothing is written. Whatever the branch, only the entry
      under the generated id may change, and the result is never older than
      the topology. */
  function GetOrCreate(w: World, c: Collaborators, env: Environment, topologyId: Id)
    : (r: Result<Step<DeploymentTopology>>)
    ensures r.Err? <==> topologyId !in w.topologies
    ensures r.Err? ==> r.error == NotFound
    ensures r.Ok? ==> r.value.world == w.(store := w.store[DeploymentId(c, env) := r.value.value])
    ensures r.Ok? ==> w.topologies[topologyId].lastUpdate <= r.value.value.lastSync
    ensures r.Ok? && StoreConsistent(w.store) ==>
      r.value.value.id == Some(DeploymentId(c, env)) && StoreConsistent(r.value.world.store)
  {
    var id := DeploymentId(c, env);
    var topology :- GetOrFail(w.topologies, Some(topologyId));
    if id !in w.store then
      var dt := Generate(c, id, env, topology, NewDeploymentTopology());
      Ok(Step(Save(w, dt), dt))
    else
      var dt := w.store[id];
      match StoredLocations(w, dt)
      case Err(_) =>
        var rebuilt := Generate(c, id, env, topology, NewDeploymentTopology());
        Ok(Step(Save(w, rebuilt), rebuilt))
      case Ok(locations) =>
        if Stale(dt, locations, topology) then
          var regenerated := Generate(c, id, env, topology, dt);
          Ok(Step(Save(w, regenerated), regenerated))
        else
          assert w.store[id := dt] == w.store;
          Ok(Step(w, dt))
  }

  /** The four outcomes of the get-or-create decision. */
  lemma GetOrCreateDecision(w: World, c: Collaborators, env: Environment, topologyId: Id)
    requires topologyId in w.topologies
    ensures var r := GetOrCreate(w, c, env, topologyId).value;
      var id := DeploymentId(c, env);
      var topology := w.topologies[topologyId];
      && (id !in w.store ==> r.value == Generate(c, id, env, topology, NewDeploymentTopology()))
      && (id in w.store && !LocationsResolve(w, w.store[id]) ==>
            r.value == Generate(c, id, env, topology, NewDeploymentTopology()))
      && (id in w.store && LocationsResolve(w, w.store[id])
          && Stale(w.store[id], ResolvedLocations(w, w.store[id]), topology) ==>
            r.value == Generate(c, id, env, topology, w.store[id]))
      && (id in w.store && LocationsResolve(w, w.store[id])
          && !Stale(w.store[id], ResolvedLocations(w, w.store[id]), topology) ==>
            r.world == w && r.value == w.store[id])
  {
  }

  /** A topology updated after the last sync forces a regeneration whose sync
      date is that update, under the same id. */
  lemma StaleTopologyForcesRegeneration(w: World, c: Collaborators, env: Environment, topologyId: Id)
    requires topologyId in w.topologies
    requires DeploymentId(c, env) in w.store
    requires w.store[DeploymentId(c, env)].lastSync < w.topologies[topologyId].lastUpdate
    ensures GetOrCreate(w, c, env, topologyId).value.value.lastSync == w.topologies[topologyId].lastUpdate
    ensures GetOrCreate(w, c, env, topologyId).value.value.id == Some(DeploymentId(c, env))
  {
  }

  /** The location-id mapping depends on the location groups only. */
  lemma LocationIdsFollowGroups(a: DeploymentTopology, b: DeploymentTopology)
    requires a.locationGroups == b.locationGroups
    ensures LocationPolicies.LocationIds(a) == LocationPolicies.LocationIds(b)
  {
  }

  /** Get-or-create settles: when no location was updated after the topology,
      a second call returns what the first returned and writes nothing. */
  lemma {:induction false} GetOrCreateSettles(w: World, c: Collaborators, env: Environment, topologyId: Id)
    requires topologyId in w.topologies
    requires forall l :: l in w.locations.Values ==> l.lastUpdate <= w.topologies[topologyId].lastUpdate
    ensures var first := GetOrCreate(w, c, env, topologyId).value;
      GetOrCreate(first.world, c, env, topologyId) == Ok(first)
  {
    var id := DeploymentId(c, env);
    var topology := w.topologies[topologyId];
    var first := GetOrCreate(w, c, env, topologyId).value;
    var w1 := first.world;
    var dt1 := first.value;
    GetOrCreateDecision(w, c, env, topologyId);
    assert w1.store[id] == dt1 && w1.locations == w.locations && w1.topologies == w.topologies;
    if id in w.store && LocationsResolve(w, w.store[id]) {
      LocationIdsFollowGroups(dt1, w.store[id]);
      assert LocationsResolve(w1, dt1);
    } else {
      assert dt1.locationGroups == map[];
      assert LocationPolicies.LocationIds(dt1) == map[];
      assert LocationsResolve(w1, dt1);
    }
    var locations := StoredLocations(w1, dt1).value;
    assert forall l :: l in locations ==> l in w.locations.Values;
    assert !Stale(dt1, locations, topology);
    assert w1.store[id := dt1] == w1.store;
  }

  /** The consequence of stamping with the topology's date alone: once a
      referenced location was updated after the topology, a call regenerates
      in place and leaves a stored topology in the very same situation, so the
      next call regenerates again. */
  lemma {:induction false} LateLocationKeepsRegenerating(w: World, c: Collaborators, env: Environment, topologyId: Id)
    requires topologyId in w.topologies
    requires DeploymentId(c, env) in w.store
    requires LocationsResolve(w, w.store[DeploymentId(c, env)])
    requires w.store[DeploymentId(c, env)].lastSync <= w.topologies[topologyId].lastUpdate
    requires exists l :: l in ResolvedLocations(w, w.store[DeploymentId(c, env)])
                      && w.topologies[topologyId].lastUpdate < l.lastUpdate
    ensures var id := DeploymentId(c, env);
      var r := GetOrCreate(w, c, env, topologyId).value;
      && r.value == Generate(c, id, env, w.topologies[topologyId], w.store[id])
      && id in r.world.store
      && LocationsResolve(r.world, r.world.store[id])
      && r.world.store[id].lastSync <= r.world.topologies[topologyId].lastUpdate
      && (exists l :: l in ResolvedLocations(r.world, r.world.store[id])
                   && r.world.topologies[topologyId].lastUpdate < l.lastUpdate)
  {
    var id := DeploymentId(c, env);
    var dt := w.store[id];
    var topology := w.topologies[topologyId];
    GetOrCreateDecision(w, c, env, topologyId);
    var l :| l in ResolvedLocations(w, dt) && topology.lastUpdate < l.lastUpdate;
    assert Stale(dt, ResolvedLocations(w, dt), topology);
    var r := GetOrCreate(w, c, env, topologyId).value;
    LocationIdsFollowGroups(r.value, dt);
    assert r.world.store[id] == r.value;
    assert ResolvedLocations(r.world, r.value) == ResolvedLocations(w, dt);
  }

  /** `updateDeploymentTopology`: look up the environment and the initial
      topology (not-found when either is missing), regenerate and save. */
  function UpdateDeploymentTopology(w: World, c: Collaborators, dt: DeploymentTopology)
    : (r: Result<Step<DeploymentTopology>>)
    requires dt.id.Some?
    ensures r.Ok? <==> (dt.environmentId.Some? && dt.environmentId.value in w.environments
                        && dt.initialTopologyId.Some? && dt.initialTopologyId.value in w.topologies)
    ensures r.Err? ==> r.error == NotFound
    ensures r.Ok? ==> r.value.value.lastSync == w.topologies[dt.initialTopologyId.value].lastUpdate
    ensures r.Ok? ==> r.value.value == dt.(lastSync := r.value.value.lastSync, nodes := r.value.value.nodes,
                                           substitutedNodes := r.value.value.substitutedNodes)
    ensures r.Ok? ==> r.value.world == w.(store := w.store[dt.id.value := r.value.value])
  {
    var env :- GetOrFail(w.environments, dt.environmentId);
    var topology :- GetOrFail(w.topologies, dt.initialTopologyId);
    var updated := DoUpdate(c, dt, topology, env);
    Ok(Step(Save(w, updated), updated))
  }

  /** `updateDeploymentTopologyInputsAndSave`: the input processors alone, then
      a save; the sync date and the substitutions are left as they are. */
  function UpdateInputsAndSave(w: World, c: Collaborators, dt: DeploymentTopology)
    : (r: Result<Step<DeploymentTopology>>)
    requires dt.id.Some?
    ensures r.Ok? <==> (dt.environmentId.Some? && dt.environmentId.value in w.environments
                        && dt.initialTopologyId.Some? && dt.initialTopologyId.value in w.topologies)
    ensures r.Err? ==> r.error == NotFound
    ensures r.Ok? ==> r.value.value == dt.(nodes := r.value.value.nodes)
    ensures r.Ok? ==> r.value.value.nodes
                      == c.processInputs(dt, w.environments[dt.environmentId.value], w.topologies[dt.initialTopologyId.value])
    ensures r.Ok? ==> r.value.world == w.(store := w.store[dt.id.value := r.value.value])
  {
    var env :- GetOrFail(w.environments, dt.environmentId);
    var topology :- GetOrFail(w.topologies, dt.initialTopologyId);
    var processed := ProcessInputs(c, dt, env, topology);
    Ok(Step(Save(w, processed), processed))
  }

  /** `getOrCreateDeploymentTopology(environmentId)`: the environment and its
      current version must exist; the version names the topology. */
  function GetOrCreateForEnvironment(w: World, c: Collaborators, environmentId: Id)
    : (r: Result<Step<DeploymentTopology>>)
    ensures environmentId !in w.environments ==> r == Err(NotFound)
    ensures environmentId in w.environments && w.environments[environmentId].currentVersionId !in w.versions ==>
      r == Err(NotFound)
    ensures environmentId in w.environments && w.environments[environmentId].currentVersionId in w.versions ==>
      var env := w.environments[environmentId];
      r == GetOrCreate(w, c, env, w.versions[env.currentVersionId].topologyId)
  {
    var env :- GetOrFail(w.environments, Some(environmentId));
    var version :- GetOrFail(w.versions, Some(env.currentVersionId));
    GetOrCreate(w, c, env, version.topologyId)
  }
}

=== FILE: tosca_model.dfy ===
/** The TOSCA elements the property helpers and the deployment topology work on. */
module ToscaModel {
  import opened Outcomes

  /** The untyped `Object` a caller hands to a property setter. Java's `null`
      is modelled one level up, as `Option<Raw>`; `ROther` is any object that is
      neither a String, a Map nor a List. */
  datatype Raw =
    | RStr(text: string)
    | RMap(entries: map<string, Raw>)
    | RList(items: seq<Raw>)
    | ROther

  /** The typed wrappers stored in a property map. */
  datatype PropertyValue =
    | Scalar(value: string)
    | Complex(entries: map<string, Raw>)
    | ListV(items: seq<Raw>)

  /** A property map. A key may be present and hold `null` (`None`). */
  type Properties = map<string, Option<PropertyValue>>

  /** Only the default value of a property definition matters here. */
  datatype PropertyDefinition = PropertyDefinition(default: Option<string>)

  datatype Capability = Capability(capabilityType: string, properties: Option<Properties>)

  datatype NodeTemplate = NodeTemplate(
    nodeType: string,
    properties: Option<Properties>,
    capabilities: map<string, Capability>)

  /** `Map.get`: the value stored under `name`, or null when the key is absent. */
  function Get(props: Properties, name: string): (v: Option<PropertyValue>)
    ensures v.Some? ==> name in props && props[name] == v
    ensures name in props ==> v == props[name]
  {
    if name in props then props[name] else None
  }
}
